=== FILE: README.md ===
# laraveldaily cleanup — a Dafny model of its core rules

`scripts/laraveldaily_cleanup.py` rewrites a corpus of saved LaravelDaily
lesson pages so that they work offline. This project models the parts of it
that carry real contracts and proves properties of them:

- **Lesson-URL normalisation and the URL map** (`lesson_urls.dfy`,
  module `LessonUrls`). `normalize_lesson_url` strips whitespace with
  Python's `str.strip` (`strings.dfy`, module `Strings`, which uses
  CPython's `isspace` set). It then drops one trailing `/` and cuts at the
  first `#`. `extract_lesson_url_from_file` reads the saved-from marker of
  a page; the page is a `LessonFile` whose marker search result is already
  extracted. `build_lesson_url_map` is a fold that fails on the first page
  without a marker, or on a URL that a different file name already
  claimed.
- **Lesson-link rewriting** (`link_rewriter.dfy`, module `LinkRewriter`).
  The page is a sequence of plain-text segments and lesson-link `href`
  matches, each split into the two groups of `HREF_LESSON_URL_RE`.
  Every match is looked up by its normalised base. A mapped match becomes
  a local file name plus the suffix. It becomes a bare fragment when it
  points at the current page with a `#` suffix. Every other match stays
  as it is.
- **DeepL batching** (`deepl_batching.dfy`, module `DeepLBatching`).
  `batches` is greedy: it closes a batch at 40 values, or when the next
  value would push the batch past 12000 characters. `translate_texts`
  sends the batches in order and stops at the first failure. It fails
  when the total number of translations differs from the number of
  inputs. The HTTP exchange is a parameter `Backend`, a function from a
  batch to a list of texts or an error message.
- **Script-block removal** (`script_removal.dfy`, module `ScriptRemoval`).
  `remove_script_blocks_containing` deletes every `<script>` block that
  contains any of the given needles, and counts them. The feedback and
  comment-editor removals use it with their fixed needle lists.
- **Change statistics and warnings** (`change_stats.dfy`, module
  `ChangeStats`). `FileChangeStats` has thirteen counters. The run totals
  are their field-wise sums. A file is flagged when `count > 1`, and in
  `--strict` mode also when `count != 1`. This applies to the breadcrumb,
  feedback-markup and comments-section counters.

Four behaviours of the code are worth stating plainly:
- The trailing slash is dropped *before* the fragment is cut, so `X/#frag`
  normalises to `X/` (`LessonUrls.SlashBeforeFragmentIsKept`).
- A removed script block is replaced by nothing.
- Lesson-body texts go out in greedy batches of at most 40 values and at
  most 12000 characters, unless the batch is one longer value.
- Zero matches and more than one match go into the same per-rule warning
  list.

## Model

| member | source | states |
|---|---|---|
| Strings.StripSpec | scripts/laraveldaily_cleanup.py:457 | `strip()` returns a slice `s[i..j]` of its input whose cut-off ends `s[..i]` and `s[j..]` are all whitespace, with no whitespace left at either end of the result, and is the identity on trimmed text |
| Strings.StripBasics | scripts/laraveldaily_cleanup.py:457 | `strip()` never lengthens, leaves no whitespace at either end, is the identity on trimmed text, and only trims the end when the first character is not whitespace |
| LessonUrls.BeforeFirstSpec | scripts/laraveldaily_cleanup.py:460 | `split("#", 1)[0]` is the longest prefix free of `#`: a prefix of the input without the character, followed in the input by that character when shorter |
| LessonUrls.NormalizeHasNoFragment | scripts/laraveldaily_cleanup.py:456-461 | a normalised URL holds no `#` and is never longer than the input |
| LessonUrls.NormalizeCanonical | scripts/laraveldaily_cleanup.py:456-461 | for a canonical URL `X`, the URLs `X`, `X/` and `X#frag` all normalise to `X`, so they share one map key |
| LessonUrls.FragmentIsCut | scripts/laraveldaily_cleanup.py:456-461 | whatever the fragment holds (spaces, slashes, more `#`), `X#frag` normalises to `X` when `X` has no `#` and starts with a non-space |
| LessonUrls.SlashBeforeFragmentIsKept | scripts/laraveldaily_cleanup.py:458-460 | because the slash is dropped before the fragment is cut, `X/#frag` normalises to `X/` |
| LessonUrls.ExtractLessonUrl | scripts/laraveldaily_cleanup.py:464-471 | fails exactly when the page has no saved-from marker, with an error naming that page; a successful result is free of `#` |
| LessonUrls.BuildFromSucceedsIff | scripts/laraveldaily_cleanup.py:476-484 | the loop succeeds exactly when every page has a marker, no two pages with different names share a URL, and no page contradicts the partial map |
| LessonUrls.BuildFromContents | scripts/laraveldaily_cleanup.py:476-484 | after a successful loop the keys are the old keys plus every page URL, each page URL maps to its page's name, and the other keys are unchanged |
| LessonUrls.BuildLessonUrlMap | scripts/laraveldaily_cleanup.py:474-486 | success exactly when every page has a marker and no URL is claimed by two names; the keys are then exactly the pages' normalised URLs, each mapped to its own page |
| LessonUrls.MapIsInjective | scripts/laraveldaily_cleanup.py:474-486 | with distinct file names, no two URLs of a successful map point at the same file |
| LessonUrls.BuildFromErrors | scripts/laraveldaily_cleanup.py:478-483 | a failure of the loop is a page's own missing-marker error, or a duplicate whose URL and second name are those of a page of the input and whose first, different name held that URL before it, in the starting map or through an earlier page |
| LessonUrls.BuildFromFailsAtFirst | scripts/laraveldaily_cleanup.py:477-483 | the loop raises at the first failing entry: the entries before it build a map, and the error is that entry's missing marker or the duplicate of its URL against the name that map already holds |
| LessonUrls.BuildErrorsNamePages | scripts/laraveldaily_cleanup.py:464-486 | a failed build names a page of the input that lacks the marker, or a URL together with the names of two pages of the input, earlier one first, that both normalise to it under different names; the page named is the first at which the build fails, since the pages before it build a map (which, for a duplicate, already gives the URL to the first name) |
| LinkRewriter.HrefKey | scripts/laraveldaily_cleanup.py:65-68 | the lookup key of a matched link is its base without one trailing slash, because the pattern's base has no whitespace and no `#` |
| LinkRewriter.RewriteSegment | scripts/laraveldaily_cleanup.py:494-505 | plain text is kept; a link is rewritten exactly when its key maps to a non-empty file name; a rewritten same-page link with a `#` suffix becomes the bare fragment, any other becomes file name plus suffix; an unmapped link is untouched |
| LinkRewriter.RewriteLessonLinks | scripts/laraveldaily_cleanup.py:489-507 | every segment is replaced in place by its own decision, and the count is the number of links whose key is mapped |
| LinkRewriter.UntouchedUnlessMapped | scripts/laraveldaily_cleanup.py:497-499 | text and links to unmapped pages come out unchanged, and every mapped link is replaced |
| LinkRewriter.CountZeroIffNoneMapped | scripts/laraveldaily_cleanup.py:489-507 | the rewrite count is zero exactly when no link on the page has a mapped key |
| LinkRewriter.RewriteIsIdempotent | scripts/laraveldaily_cleanup.py:489-507 | a second pass over a rewritten page changes nothing and counts zero |
| LinkRewriter.NothingMappedRendersUnchanged | scripts/laraveldaily_cleanup.py:497-499 | when no link is rewritten, the rendered page is exactly the rendered input |
| LinkRewriter.LinkCases | scripts/laraveldaily_cleanup.py:498-505 | on page `a`, a link to mapped `b#frag` goes to b's file plus `#frag`, a link to `a#frag` becomes `#frag`, and a link to an unmapped lesson stays |
| DeepLBatching.BatchesFrom | scripts/laraveldaily_cleanup.py:159-171 | from any loop state, the batches concatenate back to the pending batch followed by the remaining values; each batch is valid; each was closed only when full or out of character budget |
| DeepLBatching.Batches | scripts/laraveldaily_cleanup.py:153-172 | `batches` is a greedy partition: it flattens back to the input, no batch is empty or holds more than 40 values, a batch exceeds 12000 characters only as a single value, and each batch was closed only when it had to be |
| DeepLBatching.ClosedIsMaximal | scripts/laraveldaily_cleanup.py:162-164 | a batch closed by the rule cannot be extended into a longer valid batch |
| DeepLBatching.GreedyPartitionIsUnique | scripts/laraveldaily_cleanup.py:153-172 | any two greedy partitions of the same list are equal, so `Batches` is the only one |
| DeepLBatching.SendAll | scripts/laraveldaily_cleanup.py:174-211 | batches are sent in order; the loop succeeds exactly when every batch is answered, and it then returns all replies in order; otherwise the last batch sent is the first that failed, every earlier one was answered, and its error is the one reported |
| DeepLBatching.TranslateTexts | scripts/laraveldaily_cleanup.py:145-218 | an empty input makes no request; requests are a prefix of the greedy batches; success exactly when every batch is answered and the replies number as many as the inputs; a backend failure stops at the first failing batch and reports that batch's own error; a count mismatch comes only after every batch was answered and reports the number of replies received and the number of inputs |
| DeepLBatching.TranslationIsAligned | scripts/laraveldaily_cleanup.py:145-218 | with a backend that translates each text on its own, the i-th result is the translation of the i-th input |
| ScriptRemoval.RemoveScriptBlocksContaining | scripts/laraveldaily_cleanup.py:436-449 | the result is the page with some segments left out and no block holding a needle left; the count is the number of such blocks, and it equals the number of segments removed |
| ScriptRemoval.CountDoomedZero | scripts/laraveldaily_cleanup.py:436-449 | the removal count is zero exactly when no block holds a needle |
| ScriptRemoval.RemovalIsExact | scripts/laraveldaily_cleanup.py:436-449 | the only subsequence of the page without needle-holding blocks and of the removed length is the result, so nothing else is dropped |
| ScriptRemoval.KeepsEveryOtherSegment | scripts/laraveldaily_cleanup.py:443-447 | a segment of the page survives exactly when it is not a script block holding a needle |
| ScriptRemoval.RemovalIsIdempotent | scripts/laraveldaily_cleanup.py:436-449 | over the segments left by a first pass, a second pass removes nothing and leaves them unchanged |
| ScriptRemoval.RemoveFeedbackScripts | scripts/laraveldaily_cleanup.py:452-453 | every other segment is kept in order and no block mentioning `feedbackModal` or `feedbackForm` remains; the count is the number of such blocks and equals the number of segments dropped |
| ScriptRemoval.RemoveCommentsEditorScripts | scripts/laraveldaily_cleanup.py:553-562 | every other segment is kept in order and no block mentioning any of the four comment-editor needles remains; the count is the number of such blocks and equals the number of segments dropped |
| ChangeStats.Add | scripts/laraveldaily_cleanup.py:690-704 | every total grows by exactly its own counter of the file |
| ChangeStats.ShouldWarn | scripts/laraveldaily_cleanup.py:706-717 | more than one match always warns; without `--strict` only that warns; with `--strict` anything but exactly one match warns |
| ChangeStats.Flagged | scripts/laraveldaily_cleanup.py:706-717 | every file the warning rule flags is listed with its count, every listed count is one the rule flags, and the list is never longer than the run |
| ChangeStats.FlaggedAt | scripts/laraveldaily_cleanup.py:706-717 | the positions of the flagged files are strictly increasing, each one is flagged, and every flagged file's position is among them |
| ChangeStats.FlaggedInFileOrder | scripts/laraveldaily_cleanup.py:706-717 | the k-th warning entry is the path and count of the k-th flagged file of the run, in file order, and there are no other entries |
| ChangeStats.SummarizeRun | scripts/laraveldaily_cleanup.py:672-717 | after the loop every total is the sum of that counter over all files, and the three warning lists are exactly the flagged files in file order |
| ChangeStats.RerunIsQuiet | scripts/laraveldaily_cleanup.py:706-717 | without `--strict`, a run where every file matched a rule at most once lists no file |
| ChangeStats.StrictFlagsAllButOne | scripts/laraveldaily_cleanup.py:706-717 | with `--strict`, no file is listed exactly when every file matched once, and every file is listed exactly when none matched once |

## Left out

- File I/O, `glob`, `argparse`, environment variables, printing and the
  `[:10]` truncation of printed warnings: these are the program's shell,
  not its rules.
- The HTTP request, URL encoding, JSON decoding, timeouts and the choice
  of the `:fx` free-API endpoint. The model replaces them with the
  abstract `Backend`, which answers a batch with texts or a failure
  message. Filtering non-dict items out of the `translations` list is part
  of that backend.
- `translate_lesson_body_to_dutch`, which parses the page with
  BeautifulSoup to collect text nodes; only its use of `translate_texts`
  is modelled.
- The other regex rules, which are plain pattern substitutions:
  breadcrumb, feedback markup, Livewire completed button, Spotlight,
  Livewire and EasyMDE assets, and the comments section. Also left out
  are `ensure_local_site_nav`, `translate_ui_to_dutch`, and the stage
  order of `process_file`.
- The regex scanning itself: pages come already split into segments, as
  `SCRIPT_BLOCK_RE` and `HREF_LESSON_URL_RE` would split them.
  `LinkRewriter.HrefShaped` states only what the href pattern guarantees
  about its two groups. It does not check the
  `https?://laraveldaily.com/lesson/` prefix, which does not affect the
  rewriting.
- LinkRewriter.Render writes every lesson link as lowercase `href="`. The
  source's case-insensitive pattern also matches `HREF="`, and an
  unmapped match keeps its original spelling. So
  `LinkRewriter.NothingMappedRendersUnchanged` speaks about the model's
  rendering, not the original bytes of such an attribute.
- ScriptRemoval.RemovalIsIdempotent is proved over a fixed segmentation:
  the second pass sees the first pass's segments. The source re-scans the
  joined text with `SCRIPT_BLOCK_RE` instead. Removing a block can join
  two text pieces into a new block. For example,
  `<scr<script>feedbackModal</script>ipt>feedbackForm</script>` becomes
  `<script>feedbackForm</script>`, which a rerun removes with count 1.
  The model does not capture that.
- DeepLBatching.TranslateTexts does not promise that each batch's replies
  line up with that batch. Like the source, it checks only the total
  count: a backend that answers one text for a two-text batch and three
  for the next passes the check. `DeepLBatching.TranslationIsAligned`
  states alignment only for a backend that translates each text on its
  own.
- LessonUrls.NormalizeLessonUrl is not idempotent, and the model keeps it
  that way, as the source is. `a//` normalises to `a/` and then to `a`;
  `a #x` normalises to `a `. No lemma states idempotence.
- LessonUrls.BuildLessonUrlMap takes the marker search result per page
  (`LessonFile.savedFrom`) instead of the HTML text, because searching
  for the marker comment is a regular expression over the file content.

=== FILE: change_stats.dfy ===
/** Per-file change counters, their run totals and the mismatch warnings
    (`FileChangeStats` and the summary loop of `main` in
    scripts/laraveldaily_cleanup.py). */
module ChangeStats {

  datatype FileChangeStats = FileChangeStats(
    breadcrumbRemoved: nat,
    feedbackMarkupRemoved: nat,
    feedbackScriptsRemoved: nat,
    lessonLinksRewritten: nat,
    commentsSectionRemoved: nat,
    livewireCompletedButtonRemoved: nat,
    spotlightRemoved: nat,
    livewireAssetsRemoved: nat,
    easymdeAssetsRemoved: nat,
    commentsEditorScriptsRemoved: nat,
    uiStringsTranslated: nat,
    lessonBodyStringsTranslated: nat,
    localNavInserted: nat)

  /** Every counter defaults to zero. */
  const NoChanges := FileChangeStats(0, 0, 0, 0, 0, 0, 0, 0, 0, 0, 0, 0, 0)

  /** Names for the counters, so that statements can range over all of them. */
  datatype Field =
    | Breadcrumb | FeedbackMarkup | FeedbackScripts | LessonLinks | CommentsSection
    | LivewireCompletedButton | Spotlight | LivewireAssets | EasymdeAssets
    | CommentsEditorScripts | UiStrings | LessonBodyStrings | LocalNav

  function Get(s: FileChangeStats, f: Field): nat {
    match f
    case Breadcrumb => s.breadcrumbRemoved
    case FeedbackMarkup => s.feedbackMarkupRemoved
    case FeedbackScripts => s.feedbackScriptsRemoved
    case LessonLinks => s.lessonLinksRewritten
    case CommentsSection => s.commentsSectionRemoved
    case LivewireCompletedButton => s.livewireCompletedButtonRemoved
    case Spotlight => s.spotlightRemoved
    case LivewireAssets => s.livewireAssetsRemoved
    case EasymdeAssets => s.easymdeAssetsRemoved
    case CommentsEditorScripts => s.commentsEditorScriptsRemoved
    case UiStrings => s.uiStringsTranslated
    case LessonBodyStrings => s.lessonBodyStringsTranslated
    case LocalNav => s.localNavInserted
  }

  /** One step of the totals loop: every counter is added to its own total. */
  function Add(a: FileChangeStats, b: FileChangeStats): (r: FileChangeStats)
    ensures forall f :: Get(r, f) == Get(a, f) + Get(b, f)
  {
    FileChangeStats(
      a.breadcrumbRemoved + b.breadcrumbRemoved,
      a.feedbackMarkupRemoved + b.feedbackMarkupRemoved,
      a.feedbackScriptsRemoved + b.feedbackScriptsRemoved,
      a.lessonLinksRewritten + b.lessonLinksRewritten,
      a.commentsSectionRemoved + b.commentsSectionRemoved,
      a.livewireCompletedButtonRemoved + b.livewireCompletedButtonRemoved,
      a.spotlightRemoved + b.spotlightRemoved,
      a.livewireAssetsRemoved + b.livewireAssetsRemoved,
      a.easymdeAssetsRemoved + b.easymdeAssetsRemoved,
      a.commentsEditorScriptsRemoved + b.commentsEditorScriptsRemoved,
      a.uiStringsTranslated + b.uiStringsTranslated,
      a.lessonBodyStringsTranslated + b.lessonBodyStringsTranslated,
      a.localNavInserted + b.localNavInserted)
  }

  /** The sum of one counter over the reports of a run. */
  function SumField(reports: seq<FileReport>, f: Field): nat {
    if |reports| == 0 then 0 else SumField(reports[..|reports| - 1], f) + Get(reports[|reports| - 1].stats, f)
  }

  /** The warning rule: more than one match is always suspicious; in strict
      mode anything but exactly one match is. */
  function ShouldWarn(count: nat, strict: bool): (w: bool)
    ensures count > 1 ==> w
    ensures !strict ==> (w <==> count > 1)
    ensures strict ==> (w <==> count != 1)
  {
    count > 1 || (strict && count != 1)
  }

  datatype FileReport = FileReport(path: string, stats: FileChangeStats)

  datatype Mismatch = Mismatch(path: string, count: nat)

  /** The warning entry of one file for counter `f`, if the rule flags it. */
  function Flag(x: FileReport, f: Field, strict: bool): seq<Mismatch> {
    if ShouldWarn(Get(x.stats, f), strict) then [Mismatch(x.path, Get(x.stats, f))] else []
  }

  /** The files whose counter `f` the warning rule flags, in file order,
      each with the observed count. */
  function Flagged(reports: seq<FileReport>, f: Field, strict: bool): (r: seq<Mismatch>)
    ensures |r| <= |reports|
    ensures forall k :: 0 <= k < |r| ==> ShouldWarn(r[k].count, strict)
    ensures forall i :: 0 <= i < |reports| && ShouldWarn(Get(reports[i].stats, f), strict) ==>
              Mismatch(reports[i].path, Get(reports[i].stats, f)) in r
  {
    if |reports| == 0 then []
    else
      var prev := Flagged(reports[..|reports| - 1], f, strict);
      var last := reports[|reports| - 1];
      assert forall i :: 0 <= i < |reports| - 1 ==> reports[i] == reports[..|reports| - 1][i];
      // Spelled out rather than `prev + Flag(last, f, strict)`: going through
      // `Flag` here makes the proofs about the run loop far more expensive.
      if ShouldWarn(Get(last.stats, f), strict) then prev + [Mismatch(last.path, Get(last.stats, f))]
      else prev
  }

  /** The positions of the files the warning rule flags for counter `f`:
      strictly increasing, each one flagged, and none missing. */
  function FlaggedAt(reports: seq<FileReport>, f: Field, strict: bool): (idx: seq<nat>)
    ensures forall k :: 0 <= k < |idx| ==> idx[k] < |reports| && ShouldWarn(Get(reports[idx[k]].stats, f), strict)
    ensures forall k, l :: 0 <= k < l < |idx| ==> idx[k] < idx[l]
    ensures forall i :: 0 <= i < |reports| && ShouldWarn(Get(reports[i].stats, f), strict) ==> i in idx
  {
    if |reports| == 0 then []
    else
      var prev := FlaggedAt(reports[..|reports| - 1], f, strict);
      assert forall i :: 0 <= i < |reports| - 1 ==> reports[i] == reports[..|reports| - 1][i];
      if ShouldWarn(Get(reports[|reports| - 1].stats, f), strict) then prev + [|reports| - 1] else prev
  }

  /** A warning list is the flagged files in file order, each with its own
      path and count, and nothing else. */
  lemma {:induction false} FlaggedInFileOrder(reports: seq<FileReport>, f: Field, strict: bool)
    ensures var r := Flagged(reports, f, strict);
            var idx := FlaggedAt(reports, f, strict);
            && |r| == |idx|
            && forall k :: 0 <= k < |r| ==> r[k] == Mismatch(reports[idx[k]].path, Get(reports[idx[k]].stats, f))
  {
    if |reports| > 0 {
      var init := reports[..|reports| - 1];
      FlaggedInFileOrder(init, f, strict);
      var r0 := Flagged(init, f, strict);
      var idx0 := FlaggedAt(init, f, strict);
      var r := Flagged(reports, f, strict);
      var idx := FlaggedAt(reports, f, strict);
      var last := reports[|reports| - 1];
      if ShouldWarn(Get(last.stats, f), strict) {
        assert r == r0 + [Mismatch(last.path, Get(last.stats, f))];
        assert idx == idx0 + [|reports| - 1];
      } else {
        assert r == r0 && idx == idx0;
      }
      forall k | 0 <= k < |r|
        ensures r[k] == Mismatch(reports[idx[k]].path, Get(reports[idx[k]].stats, f))
      {
        if k < |r0| {
          assert r[k] == r0[k] && idx[k] == idx0[k];
          assert init[idx0[k]] == reports[idx0[k]];
        }
      }
    }
  }

  datatype Summary = Summary(
    totals: FileChangeStats,
    missingBreadcrumb: seq<Mismatch>,
    missingFeedback: seq<Mismatch>,
    missingComments: seq<Mismatch>)

  /** One more report extends each sum by its counter and each warning
      list by at most that file. */
  lemma Snoc(reports: seq<FileReport>, x: FileReport, f: Field, strict: bool)
    ensures SumField(reports + [x], f) == SumField(reports, f) + Get(x.stats, f)
    ensures Flagged(reports + [x], f, strict) ==
              Flagged(reports, f, strict) + Flag(x, f, strict)
  {
    assert (reports + [x])[..|reports|] == reports;
  }

  /** The per-file loop of `main` after each file is processed: fold the
      stats into the totals and collect the three warning lists. */
  method SummarizeRun(reports: seq<FileReport>, strict: bool) returns (s: Summary)
    ensures forall f :: Get(s.totals, f) == SumField(reports, f)
    ensures s.missingBreadcrumb == Flagged(reports, Breadcrumb, strict)
    ensures s.missingFeedback == Flagged(reports, FeedbackMarkup, strict)
    ensures s.missingComments == Flagged(reports, CommentsSection, strict)
  {
    var totals := NoChanges;
    var breadcrumb: seq<Mismatch> := [];
    var feedback: seq<Mismatch> := [];
    var comments: seq<Mismatch> := [];
    var i := 0;
    while i < |reports|
      invariant 0 <= i <= |reports|
      invariant forall f :: Get(totals, f) == SumField(reports[..i], f)
      invariant breadcrumb == Flagged(reports[..i], Breadcrumb, strict)
      invariant feedback == Flagged(reports[..i], FeedbackMarkup, strict)
      invariant comments == Flagged(reports[..i], CommentsSection, strict)
    {
      var st := reports[i].stats;
      assert reports[..i + 1] == reports[..i] + [reports[i]];
      forall f ensures SumField(reports[..i + 1], f) == SumField(reports[..i], f) + Get(st, f) {
        Snoc(reports[..i], reports[i], f, strict);
      }
      Snoc(reports[..i], reports[i], Breadcrumb, strict);
      Snoc(reports[..i], reports[i], FeedbackMarkup, strict);
      Snoc(reports[..i], reports[i], CommentsSection, strict);
      totals := Add(totals, st);
      breadcrumb := breadcrumb + Flag(reports[i], Breadcrumb, strict);
      feedback := feedback + Flag(reports[i], FeedbackMarkup, strict);
      comments := comments + Flag(reports[i], CommentsSection, strict);
      i := i + 1;
    }
    assert reports[..i] == reports;
    s := Summary(totals, breadcrumb, feedback, comments);
  }

  /** A rerun over already-cleaned files (every counter at most one) is
      silent without `--strict`. */
  lemma {:induction false} RerunIsQuiet(reports: seq<FileReport>, f: Field)
    requires forall i :: 0 <= i < |reports| ==> Get(reports[i].stats, f) <= 1
    ensures Flagged(reports, f, false) == []
  {
    if |reports| > 0 {
      var init := reports[..|reports| - 1];
      assert forall i :: 0 <= i < |init| ==> init[i] == reports[i];
      RerunIsQuiet(init, f);
    }
  }

  /** In strict mode a file is flagged exactly when its count is not one. */
  lemma {:induction false} StrictFlagsAllButOne(reports: seq<FileReport>, f: Field)
    ensures |Flagged(reports, f, true)| == |reports| <==>
              forall i :: 0 <= i < |reports| ==> Get(reports[i].stats, f) != 1
    ensures Flagged(reports, f, true) == [] <==>
              forall i :: 0 <= i < |reports| ==> Get(reports[i].stats, f) == 1
  {
    if |reports| > 0 {
      var init := reports[..|reports| - 1];
      assert forall i :: 0 <= i < |init| ==> init[i] == reports[i];
      StrictFlagsAllButOne(init, f);
    }
  }
}

=== FILE: deepl_batching.dfy ===
/** Request batching of the DeepL client (`DeepLTranslator.translate_texts`
    and its nested `batches` in scripts/laraveldaily_cleanup.py). The HTTP
    exchange is an abstract backend: one call per batch, answering with a
    list of translations or an error message. */
module DeepLBatching {
  import opened Wrappers

  const MaxItems: nat := 40
  const MaxChars: nat := 12000

  /** Total character count of a batch (Python `len` on each value). */
  function TotalLen(batch: seq<string>): nat {
    if |batch| == 0 then 0 else TotalLen(batch[..|batch| - 1]) + |batch[|batch| - 1]|
  }

  function Flatten(batches: seq<seq<string>>): seq<string> {
    if |batches| == 0 then [] else batches[0] + Flatten(batches[1..])
  }

  /** A batch the client may send: not empty, at most 40 values, and over the
      character budget only when it holds a single value. */
  predicate ValidBatch(b: seq<string>) {
    0 < |b| <= MaxItems && (TotalLen(b) > MaxChars ==> |b| == 1)
  }

  /** A batch is closed only because it is full or because `next` would push
      it past the character budget. */
  predicate ClosedBefore(b: seq<string>, next: seq<string>) {
    |next| > 0 && (|b| >= MaxItems || TotalLen(b) + |next[0]| > MaxChars)
  }

  /** The greedy partition: batches in order give back the values, each
      batch is valid, and each batch was closed only when it had to be. */
  predicate IsGreedyPartition(values: seq<string>, batches: seq<seq<string>>) {
    Flatten(batches) == values && Chained(batches)
  }

  /** Each batch is valid and each was closed only when it had to be. */
  predicate Chained(batches: seq<seq<string>>) {
    && (forall k :: 0 <= k < |batches| ==> ValidBatch(batches[k]))
    && (forall k :: 0 <= k < |batches| - 1 ==> ClosedBefore(batches[k], batches[k + 1]))
  }

  /** Putting a valid batch, closed by the rule, in front of a chain. */
  lemma ChainCons(b: seq<string>, rest: seq<seq<string>>)
    requires ValidBatch(b) && Chained(rest)
    requires |rest| > 0 ==> ClosedBefore(b, rest[0])
    ensures Chained([b] + rest)
    ensures Flatten([b] + rest) == b + Flatten(rest)
  {
    assert ([b] + rest)[1..] == rest;
  }

  lemma TotalLenAppend(b: seq<string>, v: string)
    ensures TotalLen(b + [v]) == TotalLen(b) + |v|
  {
    assert (b + [v])[..|b|] == b;
  }

  /** The loop of `batches` from the state (`current`, `current_chars`). */
  function BatchesFrom(values: seq<string>, current: seq<string>, chars: nat): (r: seq<seq<string>>)
    requires chars == TotalLen(current)
    requires |current| <= MaxItems
    requires TotalLen(current) > MaxChars ==> |current| <= 1
    ensures Flatten(r) == current + values
    ensures Chained(r)
    ensures |current| > 0 ==> |r| > 0 && |r[0]| >= |current| && r[0][..|current|] == current
    ensures |current| == 0 && |values| > 0 ==> |r| > 0 && |r[0]| > 0 && r[0][0] == values[0]
    decreases |values|
  {
    if |values| == 0 then
      if |current| > 0 then
        ChainCons(current, []);
        [current]
      else []
    else
      var v := values[0];
      TotalLenAppend(current, v);
      if |current| > 0 && (|current| >= MaxItems || chars + |v| > MaxChars) then
        var rest := BatchesFrom(values[1..], [v], |v|);
        ChainCons(current, rest);
        assert current + values == current + ([v] + values[1..]);
        [current] + rest
      else
        var rest := BatchesFrom(values[1..], current + [v], chars + |v|);
        assert (current + [v]) + values[1..] == current + values;
        assert rest[0][..|current|] == rest[0][..|current| + 1][..|current|];
        rest
  }

  /** `batches(values)`. */
  function Batches(values: seq<string>): (r: seq<seq<string>>)
    ensures IsGreedyPartition(values, r)
  {
    BatchesFrom(values, [], 0)
  }

  lemma {:induction false} TotalLenPrefix(b: seq<string>, n: nat)
    requires n <= |b|
    ensures TotalLen(b[..n]) <= TotalLen(b)
    decreases |b|
  {
    if n < |b| {
      assert b[..|b| - 1][..n] == b[..n];
      TotalLenPrefix(b[..|b| - 1], n);
    } else {
      assert b[..n] == b;
    }
  }

  lemma {:induction false} FlattenEmpty(batches: seq<seq<string>>)
    requires forall k :: 0 <= k < |batches| ==> ValidBatch(batches[k])
    ensures |Flatten(batches)| == 0 <==> |batches| == 0
  {
  }

  /** Dropping the first batch of a greedy partition leaves a greedy
      partition of the remaining values. */
  lemma GreedyTail(values: seq<string>, batches: seq<seq<string>>)
    requires IsGreedyPartition(values, batches)
    requires |batches| > 0
    ensures |batches[0]| <= |values| && values[..|batches[0]|] == batches[0]
    ensures IsGreedyPartition(values[|batches[0]|..], batches[1..])
    ensures |batches| > 1 ==> |values| > |batches[0]| && batches[1][0] == values[|batches[0]|]
  {
    var b := batches[0];
    assert values == b + Flatten(batches[1..]);
    assert values[|b|..] == Flatten(batches[1..]);
    var rest := batches[1..];
    assert forall k :: 0 <= k < |rest| ==> rest[k] == batches[k + 1];
    if |batches| > 1 {
      assert Flatten(rest) == rest[0] + Flatten(rest[1..]);
    }
  }

  /** A batch closed by the rule cannot be a proper prefix of a valid batch. */
  lemma ClosedIsMaximal(b: seq<string>, c: seq<string>, next: seq<string>)
    requires ValidBatch(b) && ValidBatch(c)
    requires ClosedBefore(b, next)
    requires |b| < |c| ==> c[..|b|] == b && next[0] == c[|b|]
    ensures |c| <= |b|
  {
    if |b| < |c| && |b| < MaxItems {
      TotalLenAppend(b, c[|b|]);
      assert c[..|b| + 1] == b + [c[|b|]];
      TotalLenPrefix(c, |b| + 1);
    }
  }

  /** There is only one greedy partition of a list, so `Batches` is
      characterised by the three rules of `IsGreedyPartition`. */
  lemma {:induction false} GreedyPartitionIsUnique(values: seq<string>, bs1: seq<seq<string>>, bs2: seq<seq<string>>)
    requires IsGreedyPartition(values, bs1) && IsGreedyPartition(values, bs2)
    ensures bs1 == bs2
    decreases |values|
  {
    FlattenEmpty(bs1);
    FlattenEmpty(bs2);
    if |values| == 0 {
      return;
    }
    GreedyTail(values, bs1);
    GreedyTail(values, bs2);
    var b1, b2 := bs1[0], bs2[0];
    if |b1| < |b2| {
      assert b2[..|b1|] == values[..|b1|];
      ClosedIsMaximal(b1, b2, bs1[1]);
    } else if |b2| < |b1| {
      assert b1[..|b2|] == values[..|b2|];
      ClosedIsMaximal(b2, b1, bs2[1]);
    } else {
      GreedyPartitionIsUnique(values[|b1|..], bs1[1..], bs2[1..]);
      assert bs1 == [b1] + bs1[1..] && bs2 == [b2] + bs2[1..];
    }
  }

  /** The backend: one call per batch, answering with translations or with
      the failure the client reports (HTTP status, connection error or a
      payload without a `translations` list). */
  type Backend = seq<string> -> Result<seq<string>, string>

  datatype TranslateError =
    | BackendFailed(message: string)
    | CountMismatch(returned: nat, expected: nat)

  /** The outcome of a translation together with the batches actually sent. */
  datatype Translation = Translation(result: Result<seq<string>, TranslateError>, requests: seq<seq<string>>)

  /** Every reply of the backend for these batches, in order, where it
      answered. */
  function ReplyTexts(batches: seq<seq<string>>, backend: Backend): seq<string> {
    if |batches| == 0 then []
    else
      (match backend(batches[0]) case Success(ts) => ts case Failure(_) => [])
      + ReplyTexts(batches[1..], backend)
  }

  predicate AllAnswered(batches: seq<seq<string>>, backend: Backend) {
    forall k :: 0 <= k < |batches| ==> backend(batches[k]).Success?
  }

  datatype Sent = Sent(replies: Result<seq<string>, string>, requests: seq<seq<string>>)

  /** The request loop: batches are sent in order and the first failure
      stops it. */
  function SendAll(batches: seq<seq<string>>, backend: Backend): (s: Sent)
    ensures |s.requests| <= |batches| && s.requests == batches[..|s.requests|]
    ensures s.replies.Success? <==> AllAnswered(batches, backend)
    ensures s.replies.Success? ==> s.requests == batches && s.replies.value == ReplyTexts(batches, backend)
    ensures s.replies.Failure? ==>
              |s.requests| > 0 && backend(s.requests[|s.requests| - 1]) == Failure(s.replies.error)
    ensures s.replies.Failure? ==> forall k :: 0 <= k < |s.requests| - 1 ==> backend(s.requests[k]).Success?
  {
    if |batches| == 0 then Sent(Success([]), [])
    else
      match backend(batches[0])
      case Failure(msg) => Sent(Failure(msg), [batches[0]])
      case Success(ts) =>
        var rest := SendAll(batches[1..], backend);
        assert forall k :: 0 < k < |batches| ==> batches[k] == batches[1..][k - 1];
        match rest.replies
        case Failure(msg) => Sent(Failure(msg), [batches[0]] + rest.requests)
        case Success(more) => Sent(Success(ts + more), [batches[0]] + rest.requests)
  }

  /** `translate_texts`: no call at all for an empty list; otherwise the
      greedy batches are sent in order and the answer must hold exactly one
      translation per input. */
  function TranslateTexts(texts: seq<string>, backend: Backend): (t: Translation)
    ensures |texts| == 0 ==> t == Translation(Success([]), [])
    ensures |t.requests| <= |Batches(texts)| && t.requests == Batches(texts)[..|t.requests|]
    ensures t.result.Success? ==> |t.result.value| == |texts|
    ensures t.result.Success? ==> t.requests == Batches(texts) && Flatten(t.requests) == texts
    ensures t.result.Success? <==>
              AllAnswered(Batches(texts), backend) && |ReplyTexts(Batches(texts), backend)| == |texts|
    ensures t.result.Success? ==> t.result.value == ReplyTexts(Batches(texts), backend)
    ensures t.result.Failure? && t.result.error.CountMismatch? ==>
              t.result.error.expected == |texts| && t.result.error.returned != |texts|
    ensures t.result.Failure? && t.result.error.CountMismatch? ==>
              && AllAnswered(Batches(texts), backend) && t.requests == Batches(texts)
              && t.result.error.returned == |ReplyTexts(Batches(texts), backend)|
    ensures t.result.Failure? && t.result.error.BackendFailed? ==>
              && |t.requests| > 0
              && backend(t.requests[|t.requests| - 1]) == Failure(t.result.error.message)
              && forall k :: 0 <= k < |t.requests| - 1 ==> backend(t.requests[k]).Success?
  {
    if |texts| == 0 then Translation(Success([]), [])
    else
      var sent := SendAll(Batches(texts), backend);
      match sent.replies
      case Failure(msg) => Translation(Failure(BackendFailed(msg)), sent.requests)
      case Success(results) =>
        if |results| != |texts| then Translation(Failure(CountMismatch(|results|, |texts|)), sent.requests)
        else Translation(Success(results), sent.requests)
  }

  /** Applies a per-text translation to every text. */
  function MapTexts(f: string -> string, texts: seq<string>): (r: seq<string>)
    ensures |r| == |texts| && forall i :: 0 <= i < |texts| ==> r[i] == f(texts[i])
  {
    seq(|texts|, i requires 0 <= i < |texts| => f(texts[i]))
  }

  lemma {:induction false} ReplyTextsOfPerTextBackend(batches: seq<seq<string>>, backend: Backend, f: string -> string)
    requires forall b :: backend(b) == Success(MapTexts(f, b))
    ensures ReplyTexts(batches, backend) == MapTexts(f, Flatten(batches))
  {
    if |batches| > 0 {
      ReplyTextsOfPerTextBackend(batches[1..], backend, f);
    }
  }

  /** With a backend that translates each text on its own, the client
      succeeds and the i-th result is the translation of the i-th text:
      batching neither loses, duplicates nor reorders anything. */
  lemma TranslationIsAligned(texts: seq<string>, backend: Backend, f: string -> string)
    requires forall b :: backend(b) == Success(MapTexts(f, b))
    ensures TranslateTexts(texts, backend).result == Success(MapTexts(f, texts))
  {
    ReplyTextsOfPerTextBackend(Batches(texts), backend, f);
  }
}

=== FILE: lesson_urls.dfy ===
/** Lesson-URL normalisation and the URL -> local filename map
    (`normalize_lesson_url`, `extract_lesson_url_from_file` and
    `build_lesson_url_map` in scripts/laraveldaily_cleanup.py). */
module LessonUrls {
  import opened Wrappers
  import opened Strings

  /** Drops exactly one trailing `/`, if there is one. */
  function DropTrailingSlash(s: string): string {
    if |s| > 0 && s[|s| - 1] == '/' then s[..|s| - 1] else s
  }

  /** Python's `s.split(c, 1)[0]`: everything before the first `c`. */
  function BeforeFirst(s: string, c: char): string {
    if |s| == 0 || s[0] == c then "" else [s[0]] + BeforeFirst(s[1..], c)
  }

  /** Strip surrounding whitespace, then drop one trailing slash, then cut at
      the first `#`, in that order. */
  function NormalizeLessonUrl(url: string): string {
    BeforeFirst(DropTrailingSlash(Strip(url)), '#')
  }

  /** `split(c, 1)[0]` is the longest prefix without `c`. */
  lemma {:induction false} BeforeFirstSpec(s: string, c: char)
    ensures var r := BeforeFirst(s, c);
            && |r| <= |s| && r == s[..|r|]
            && c !in r
            && (|r| < |s| ==> s[|r|] == c)
    decreases |s|
  {
    if |s| > 0 && s[0] != c {
      BeforeFirstSpec(s[1..], c);
    }
  }

  /** A normalised URL never holds a fragment marker and is never longer
      than the input. */
  lemma NormalizeHasNoFragment(url: string)
    ensures '#' !in NormalizeLessonUrl(url)
    ensures |NormalizeLessonUrl(url)| <= |url|
  {
    StripBasics(url);
    BeforeFirstSpec(DropTrailingSlash(Strip(url)), '#');
  }

  /** A URL that is already a map key: no fragment, no surrounding
      whitespace and no trailing slash. */
  predicate CanonicalUrl(x: string) {
    '#' !in x && Trimmed(x) && (|x| == 0 || x[|x| - 1] != '/')
  }

  lemma {:induction false} BeforeFirstStopsAt(x: string, c: char, rest: string)
    requires c !in x
    ensures BeforeFirst(x + [c] + rest, c) == x
  {
    var s := x + [c] + rest;
    assert s[|x|] == c;
    BeforeFirstSpec(s, c);
  }

  /** `X`, `X/` and `X#frag` all normalise to `X` for a canonical `X`. */
  lemma NormalizeCanonical(x: string, frag: string)
    requires CanonicalUrl(x)
    ensures NormalizeLessonUrl(x) == x
    ensures NormalizeLessonUrl(x + "/") == x
    ensures NormalizeLessonUrl(x + "#" + frag) == x
  {
    BeforeFirstSpec(x, '#');
    StripBasics(x);
    var xs := x + "/";
    assert Trimmed(xs);
    StripBasics(xs);
    assert DropTrailingSlash(xs) == x;
    FragmentIsCut(x, frag);
  }

  /** Stripping `X#frag` keeps at least `X#`. */
  lemma StripKeepsHash(x: string, frag: string)
    requires |x| == 0 || !IsSpace(x[0])
    ensures var t := Strip(x + "#" + frag); |t| > |x| && t[..|x| + 1] == x + "#"
  {
    var s := x + "#" + frag;
    assert s[..|x| + 1] == x + "#";
    assert !IsSpace(s[0]) by {
      if |x| == 0 {
        assert s[0] == '#';
      } else {
        assert s[0] == x[0];
      }
    }
    assert s[|x|] == '#';
    StripBasics(s);
    StripTrailingKeeps(s, |x|);
    StripTrailingSpec(s);
    var t := StripTrailing(s);
    assert t[..|x| + 1] == s[..|x| + 1];
  }

  /** Dropping a trailing slash keeps a prefix that ends in `#`. */
  lemma DropKeepsHash(t: string, x: string)
    requires |t| > |x| && t[..|x| + 1] == x + "#"
    ensures var d := DropTrailingSlash(t); |d| > |x| && d == x + "#" + d[|x| + 1..]
  {
    var d := DropTrailingSlash(t);
    assert t[|x|] == '#';
    assert d == t[..|d|];
    assert d[..|x| + 1] == x + "#";
    assert d == d[..|x| + 1] + d[|x| + 1..];
  }

  /** The whole fragment is discarded, whatever it holds, as long as the part
      before it starts with a non-space character. */
  lemma FragmentIsCut(x: string, frag: string)
    requires '#' !in x
    requires |x| == 0 || !IsSpace(x[0])
    ensures NormalizeLessonUrl(x + "#" + frag) == x
  {
    StripKeepsHash(x, frag);
    var t := Strip(x + "#" + frag);
    DropKeepsHash(t, x);
    var d := DropTrailingSlash(t);
    BeforeFirstStopsAt(x, '#', d[|x| + 1..]);
  }

  /** Because the slash is dropped before the fragment is cut, `X/#frag`
      keeps its slash. */
  lemma SlashBeforeFragmentIsKept(x: string, frag: string)
    requires '#' !in x
    requires |x| == 0 || !IsSpace(x[0])
    ensures NormalizeLessonUrl(x + "/#" + frag) == x + "/"
  {
    assert x + "/#" + frag == (x + "/") + "#" + frag;
    FragmentIsCut(x + "/", frag);
  }

  /** One lesson page: its local file name and the URL captured by its
      `<!-- saved from url=(N)... -->` marker, or None when the marker is
      absent. */
  datatype LessonFile = LessonFile(name: string, savedFrom: Option<string>)

  datatype MapError =
    | MissingSavedFromUrl(file: string)
    | DuplicateLessonUrl(url: string, first: string, second: string)

  /** A page without the saved-from marker is an error naming that page. */
  function ExtractLessonUrl(f: LessonFile): (r: Result<string, MapError>)
    ensures r.Failure? <==> f.savedFrom.None?
    ensures r.Failure? ==> r.error == MissingSavedFromUrl(f.name)
    ensures r.Success? ==> '#' !in r.value
  {
    if f.savedFrom.Some? then NormalizeHasNoFragment(f.savedFrom.value); Success(NormalizeLessonUrl(f.savedFrom.value))
    else Failure(MissingSavedFromUrl(f.name))
  }

  /** A page as the map builder sees it: its name and the outcome of
      extracting its normalised saved-from URL. */
  datatype Entry = Entry(name: string, url: Result<string, MapError>)

  function Entries(files: seq<LessonFile>): (es: seq<Entry>)
    ensures |es| == |files|
    ensures forall i :: 0 <= i < |files| ==> es[i] == Entry(files[i].name, ExtractLessonUrl(files[i]))
  {
    seq(|files|, i requires 0 <= i < |files| => Entry(files[i].name, ExtractLessonUrl(files[i])))
  }

  ghost predicate AllMarked(es: seq<Entry>) {
    forall i :: 0 <= i < |es| ==> es[i].url.Success?
  }

  /** No two pages with different names claim the same normalised URL. */
  ghost predicate NoConflict(es: seq<Entry>) {
    forall i, j ::
      0 <= i < j < |es| && es[i].url.Success? && es[j].url.Success? && es[i].url.value == es[j].url.value
      ==> es[i].name == es[j].name
  }

  /** Every page whose URL is already a key of `acc` is mapped to its own name. */
  ghost predicate AgreesWith(acc: map<string, string>, es: seq<Entry>) {
    forall i ::
      0 <= i < |es| && es[i].url.Success? && es[i].url.value in acc
      ==> acc[es[i].url.value] == es[i].name
  }

  ghost function UrlSet(es: seq<Entry>): set<string> {
    set i | 0 <= i < |es| && es[i].url.Success? :: es[i].url.value
  }

  /** The loop of `build_lesson_url_map`, from a partially built map. */
  function BuildFrom(es: seq<Entry>, acc: map<string, string>): Result<map<string, string>, MapError>
    decreases |es|
  {
    if |es| == 0 then Success(acc)
    else
      match es[0].url
      case Failure(e) => Failure(e)
      case Success(url) =>
        if url in acc && acc[url] != es[0].name then
          Failure(DuplicateLessonUrl(url, acc[url], es[0].name))
        else
          BuildFrom(es[1..], acc[url := es[0].name])
  }

  lemma {:induction false} BuildFromSucceedsIff(es: seq<Entry>, acc: map<string, string>)
    ensures BuildFrom(es, acc).Success?
        <==> AllMarked(es) && NoConflict(es) && AgreesWith(acc, es)
    decreases |es|
  {
    if |es| == 0 {
      return;
    }
    var e := es[0];
    var rest := es[1..];
    if e.url.Failure? {
      return;
    }
    var u := e.url.value;
    if u in acc && acc[u] != e.name {
      assert !AgreesWith(acc, es);
      return;
    }
    var acc' := acc[u := e.name];
    BuildFromSucceedsIff(rest, acc');
    if AllMarked(rest) && NoConflict(rest) && AgreesWith(acc', rest) {
      assert AllMarked(es) by {
        forall i | 0 < i < |es| ensures es[i].url.Success? {
          assert es[i] == rest[i - 1];
        }
      }
      assert NoConflict(es) by {
        forall i, j | 0 <= i < j < |es| && es[i].url.Success? && es[j].url.Success?
          && es[i].url.value == es[j].url.value
          ensures es[i].name == es[j].name
        {
          assert es[j] == rest[j - 1];
          if i > 0 {
            assert es[i] == rest[i - 1];
          }
        }
      }
      assert AgreesWith(acc, es) by {
        forall i | 0 < i < |es| && es[i].url.Success? && es[i].url.value in acc
          ensures acc[es[i].url.value] == es[i].name
        {
          assert es[i] == rest[i - 1];
        }
      }
    }
    if AllMarked(es) && NoConflict(es) && AgreesWith(acc, es) {
      assert AllMarked(rest) by {
        forall i | 0 <= i < |rest| ensures rest[i].url.Success? {
          assert rest[i] == es[i + 1];
        }
      }
      assert NoConflict(rest) by {
        forall i, j | 0 <= i < j < |rest| && rest[i].url.Success? && rest[j].url.Success?
          && rest[i].url.value == rest[j].url.value
          ensures rest[i].name == rest[j].name
        {
          assert es[i + 1] == rest[i] && es[j + 1] == rest[j];
        }
      }
      assert AgreesWith(acc', rest) by {
        forall i | 0 <= i < |rest| && rest[i].url.Success? && rest[i].url.value in acc'
          ensures acc'[rest[i].url.value] == rest[i].name
        {
          assert es[i + 1] == rest[i];
        }
      }
    }
  }

  lemma {:induction false} BuildFromContents(es: seq<Entry>, acc: map<string, string>)
    requires BuildFrom(es, acc).Success?
    ensures BuildFrom(es, acc).value.Keys == acc.Keys + UrlSet(es)
    ensures forall i :: 0 <= i < |es| && es[i].url.Success? ==>
              BuildFrom(es, acc).value[es[i].url.value] == es[i].name
    ensures forall k :: k in acc && k !in UrlSet(es) ==> BuildFrom(es, acc).value[k] == acc[k]
    decreases |es|
  {
    if |es| == 0 {
      assert UrlSet(es) == {};
      return;
    }
    var e := es[0];
    var rest := es[1..];
    var u := e.url.value;
    var acc' := acc[u := e.name];
    assert BuildFrom(es, acc) == BuildFrom(rest, acc');
    BuildFromContents(rest, acc');
    var m := BuildFrom(es, acc).value;
    assert UrlSet(es) == {u} + UrlSet(rest) by {
      forall v | v in UrlSet(es) ensures v in {u} + UrlSet(rest) {
        var i :| 0 <= i < |es| && es[i].url.Success? && es[i].url.value == v;
        if i > 0 {
          assert rest[i - 1] == es[i];
        }
      }
      forall v | v in UrlSet(rest) ensures v in UrlSet(es) {
        var i :| 0 <= i < |rest| && rest[i].url.Success? && rest[i].url.value == v;
        assert es[i + 1] == rest[i];
      }
    }
    forall i | 0 <= i < |es| && es[i].url.Success?
      ensures m[es[i].url.value] == es[i].name
    {
      if i == 0 {
        if u in UrlSet(rest) {
          var j :| 0 <= j < |rest| && rest[j].url.Success? && rest[j].url.value == u;
          BuildFromSucceedsIff(rest, acc');
          assert acc'[u] == e.name;
        }
      } else {
        assert rest[i - 1] == es[i];
      }
    }
  }

  /** `build_lesson_url_map`: fails on the first page without a marker or the
      first page whose URL is already mapped to a different name; otherwise
      every page's URL maps to that page's name and nothing else is mapped. */
  function BuildLessonUrlMap(files: seq<LessonFile>): (r: Result<map<string, string>, MapError>)
    ensures r.Success? <==> AllMarked(Entries(files)) && NoConflict(Entries(files))
    ensures r.Success? ==> r.value.Keys == UrlSet(Entries(files))
    ensures r.Success? ==> forall i :: 0 <= i < |files| ==>
              ExtractLessonUrl(files[i]).Success? && r.value[ExtractLessonUrl(files[i]).value] == files[i].name
  {
    var es := Entries(files);
    BuildFromSucceedsIff(es, map[]);
    var r := BuildFrom(es, map[]);
    if r.Success? then
      BuildFromContents(es, map[]);
      r
    else r
  }

  ghost predicate DistinctNames(files: seq<LessonFile>) {
    forall i, j :: 0 <= i < j < |files| ==> files[i].name != files[j].name
  }

  /** With distinct file names (one directory listing), a successful map is
      injective: no two lesson URLs share a local file. */
  lemma MapIsInjective(files: seq<LessonFile>)
    requires DistinctNames(files)
    requires BuildLessonUrlMap(files).Success?
    ensures var m := BuildLessonUrlMap(files).value;
            forall u, v :: u in m && v in m && u != v ==> m[u] != m[v]
  {
    var es := Entries(files);
    var m := BuildLessonUrlMap(files).value;
    forall u, v | u in m && v in m && u != v ensures m[u] != m[v] {
      var i :| 0 <= i < |es| && es[i].url.Success? && es[i].url.value == u;
      var j :| 0 <= j < |es| && es[j].url.Success? && es[j].url.value == v;
      assert m[u] == files[i].name && m[v] == files[j].name;
    }
  }

  /** `name` already held `url` before entry `j` was reached: in the
      partial map the loop started from, or through an earlier entry. */
  ghost predicate HeldBefore(es: seq<Entry>, acc: map<string, string>, url: string, name: string, j: int) {
    || (url in acc && acc[url] == name)
    || exists i :: 0 <= i < j && i < |es| && es[i].url == Success(url) && es[i].name == name
  }

  /** One loop step: what the map held after the first entry was held before
      it, or was put there by it. */
  lemma HeldBeforeStep(es: seq<Entry>, acc: map<string, string>, url: string, name: string, j: nat)
    requires |es| > 0 && es[0].url.Success?
    requires HeldBefore(es[1..], acc[es[0].url.value := es[0].name], url, name, j)
    ensures HeldBefore(es, acc, url, name, j + 1)
  {
    var acc' := acc[es[0].url.value := es[0].name];
    if url in acc' && acc'[url] == name {
      if url == es[0].url.value {
        assert es[0].url == Success(url) && es[0].name == name;
      }
    } else {
      var i :| 0 <= i < j && i < |es[1..]| && es[1..][i].url == Success(url) && es[1..][i].name == name;
      assert es[i + 1] == es[1..][i];
    }
  }

  /** The errors name what the source reports: a page without a marker, or
      a URL together with the name that already holds it (from the partial
      map or from an earlier page) and the later page's different name. */
  lemma {:induction false} BuildFromErrors(es: seq<Entry>, acc: map<string, string>)
    requires forall i :: 0 <= i < |es| && es[i].url.Failure? ==> es[i].url.error == MissingSavedFromUrl(es[i].name)
    requires BuildFrom(es, acc).Failure?
    ensures var e := BuildFrom(es, acc).error;
            && (!e.DuplicateLessonUrl? ==> exists i :: 0 <= i < |es| && es[i].url == Failure(e))
            && (e.DuplicateLessonUrl? ==> e.first != e.second)
            && (e.DuplicateLessonUrl? ==>
                  exists j :: 0 <= j < |es| && es[j].url == Success(e.url) && es[j].name == e.second
                    && HeldBefore(es, acc, e.url, e.first, j))
    decreases |es|
  {
    if es[0].url.Success? {
      var u := es[0].url.value;
      if u in acc && acc[u] != es[0].name {
        assert BuildFrom(es, acc) == Failure(DuplicateLessonUrl(u, acc[u], es[0].name));
        assert HeldBefore(es, acc, u, acc[u], 0);
      } else {
        var acc' := acc[u := es[0].name];
        assert BuildFrom(es, acc) == BuildFrom(es[1..], acc');
        assert forall i :: 0 <= i < |es[1..]| ==> es[1..][i] == es[i + 1];
        BuildFromErrors(es[1..], acc');
        var e := BuildFrom(es, acc).error;
        if !e.DuplicateLessonUrl? {
          var i :| 0 <= i < |es[1..]| && es[1..][i].url == Failure(e);
          assert es[i + 1].url == Failure(e);
        } else {
          var j :| 0 <= j < |es[1..]| && es[1..][j].url == Success(e.url) && es[1..][j].name == e.second
                   && HeldBefore(es[1..], acc', e.url, e.first, j);
          HeldBeforeStep(es, acc, e.url, e.first, j);
          assert es[j + 1] == es[1..][j];
        }
      }
    }
  }

  /** Entry `j` is where the loop stops with `e`: the entries before it built
      a map, and entry `j` either has no marker or claims a URL that map
      already gives to a different name. */
  ghost predicate StopsAt(es: seq<Entry>, acc: map<string, string>, j: int, e: MapError) {
    && 0 <= j < |es|
    && BuildFrom(es[..j], acc).Success?
    && match es[j].url
       case Failure(err) => e == err
       case Success(u) =>
         var m := BuildFrom(es[..j], acc).value;
         u in m && m[u] != es[j].name && e == DuplicateLessonUrl(u, m[u], es[j].name)
  }

  /** The loop raises at the first failing entry: the error is that entry's
      own, with the prefix before it built without error. */
  lemma {:induction false} BuildFromFailsAtFirst(es: seq<Entry>, acc: map<string, string>)
    requires BuildFrom(es, acc).Failure?
    ensures exists j :: StopsAt(es, acc, j, BuildFrom(es, acc).error)
    decreases |es|
  {
    assert es[..0] == [];
    var e := BuildFrom(es, acc).error;
    if es[0].url.Failure? {
      assert StopsAt(es, acc, 0, e);
      return;
    }
    var u := es[0].url.value;
    if u in acc && acc[u] != es[0].name {
      assert StopsAt(es, acc, 0, e);
      return;
    }
    var acc' := acc[u := es[0].name];
    assert BuildFrom(es, acc) == BuildFrom(es[1..], acc');
    BuildFromFailsAtFirst(es[1..], acc');
    var j :| StopsAt(es[1..], acc', j, e);
    assert es[..j + 1][1..] == es[1..][..j];
    assert BuildFrom(es[..j + 1], acc) == BuildFrom(es[1..][..j], acc');
    assert es[j + 1] == es[1..][j];
    assert StopsAt(es, acc, j + 1, e);
  }

  lemma EntriesPrefix(files: seq<LessonFile>, j: nat)
    requires j <= |files|
    ensures Entries(files[..j]) == Entries(files)[..j]
  {
  }

  /** Page `j` is the one the build raises `e` at: the pages before it build a
      map, and page `j` has no marker, or claims a URL that map already gives
      to a different name. */
  ghost predicate FirstFailing(files: seq<LessonFile>, j: int, e: MapError) {
    && 0 <= j < |files|
    && BuildLessonUrlMap(files[..j]).Success?
    && match e
       case MissingSavedFromUrl(f) => files[j] == LessonFile(f, None)
       case DuplicateLessonUrl(u, first, second) =>
         var m := BuildLessonUrlMap(files[..j]).value;
         && ExtractLessonUrl(files[j]) == Success(u) && files[j].name == second
         && u in m && m[u] == first && first != second
  }

  /** A failed build names either a page of the input that has no saved-from
      marker, or a URL that two pages of the input, in that order, claim
      under different names; and the page it names is the first at which
      the loop can fail. */
  lemma BuildErrorsNamePages(files: seq<LessonFile>)
    requires BuildLessonUrlMap(files).Failure?
    ensures var e := BuildLessonUrlMap(files).error;
            && (e.MissingSavedFromUrl? ==> exists i :: 0 <= i < |files| && files[i] == LessonFile(e.file, None))
            && (e.DuplicateLessonUrl? ==> e.first != e.second)
            && (e.DuplicateLessonUrl? ==>
                  exists i, j :: 0 <= i < j < |files|
                    && ExtractLessonUrl(files[i]) == Success(e.url) && ExtractLessonUrl(files[j]) == Success(e.url)
                    && files[i].name == e.first && files[j].name == e.second)
            && (exists j :: 0 <= j < |files| && FirstFailing(files, j, e))
  {
    var es := Entries(files);
    var empty: map<string, string> := map[];
    BuildFromErrors(es, empty);
    var e := BuildLessonUrlMap(files).error;
    if e.MissingSavedFromUrl? {
      var i :| 0 <= i < |es| && es[i].url == Failure(e);
      assert files[i].savedFrom.None?;
    } else if e.DuplicateLessonUrl? {
      var j :| 0 <= j < |es| && es[j].url == Success(e.url) && es[j].name == e.second
               && HeldBefore(es, empty, e.url, e.first, j);
      var i :| 0 <= i < j && i < |es| && es[i].url == Success(e.url) && es[i].name == e.first;
      assert ExtractLessonUrl(files[i]) == Success(e.url) && files[i].name == e.first;
      assert ExtractLessonUrl(files[j]) == Success(e.url) && files[j].name == e.second;
    }
    BuildFromFailsAtFirst(es, empty);
    var k :| StopsAt(es, empty, k, e);
    EntriesPrefix(files, k);
    assert FirstFailing(files, k, e);
  }
}

=== FILE: link_rewriter.dfy ===
/** Rewriting of links to other lesson pages (`rewrite_lesson_links` in
    scripts/laraveldaily_cleanup.py). The page is a sequence of segments:
    plain text, or one `href="<base><suffix>"` attribute matched by the
    lesson-link pattern, already split into its two groups. */
module LinkRewriter {
  import opened Strings
  import LessonUrls

  datatype Segment = Text(s: string) | Href(base: string, suffix: string)

  /** What the lesson-link pattern guarantees of a match: a non-empty base
      free of `"`, `#`, `?` and whitespace, and a suffix free of `"` that,
      because the base is matched greedily, is empty or starts with one of
      the characters that stopped the base. */
  predicate HrefShaped(base: string, suffix: string) {
    && |base| > 0
    && (forall k :: 0 <= k < |base| ==> base[k] != '"' && base[k] != '#' && base[k] != '?' && !IsSpace(base[k]))
    && '"' !in suffix
    && (|suffix| == 0 || suffix[0] == '#' || suffix[0] == '?' || IsSpace(suffix[0]))
  }

  predicate WellFormed(doc: seq<Segment>) {
    forall i :: 0 <= i < |doc| && doc[i].Href? ==> HrefShaped(doc[i].base, doc[i].suffix)
  }

  function Attr(value: string): string {
    "href=\"" + value + "\""
  }

  function Render(doc: seq<Segment>): string {
    if |doc| == 0 then ""
    else
      (match doc[0]
       case Text(s) => s
       case Href(base, suffix) => Attr(base + suffix))
      + Render(doc[1..])
  }

  /** The map lookup of the source treats a missing key and an empty file
      name alike: both leave the link alone. */
  predicate Mapped(key: string, urlToFilename: map<string, string>) {
    key in urlToFilename && urlToFilename[key] != ""
  }

  /** The lookup key of a matched link is its base without one trailing
      slash; the fragment cut never applies, since the base holds no `#`. */
  lemma HrefKey(base: string, suffix: string)
    requires HrefShaped(base, suffix)
    ensures LessonUrls.NormalizeLessonUrl(base) == LessonUrls.DropTrailingSlash(base)
  {
    assert Trimmed(base);
    StripBasics(base);
    var d := LessonUrls.DropTrailingSlash(base);
    assert '#' !in d by {
      assert d == base[..|d|];
    }
    LessonUrls.BeforeFirstSpec(d, '#');
  }

  /** A matched base that does not end in `/` is its own lookup key. */
  lemma BaseWithoutSlashIsKey(base: string, suffix: string)
    requires HrefShaped(base, suffix)
    requires base[|base| - 1] != '/'
    ensures LessonUrls.NormalizeLessonUrl(base) == base
  {
    HrefKey(base, suffix);
  }

  datatype Decision = Decision(segment: Segment, rewritten: bool)

  /** The per-link replacement of the source. */
  function RewriteSegment(seg: Segment, currentLessonUrl: string, urlToFilename: map<string, string>): (d: Decision)
    requires seg.Href? ==> HrefShaped(seg.base, seg.suffix)
    ensures seg.Text? ==> d == Decision(seg, false)
    ensures seg.Href? ==> (d.rewritten <==> Mapped(LessonUrls.NormalizeLessonUrl(seg.base), urlToFilename))
    ensures !d.rewritten ==> d.segment == seg
    ensures d.rewritten ==>
              var key := LessonUrls.NormalizeLessonUrl(seg.base);
              if key == currentLessonUrl && StartsWith(seg.suffix, "#")
              then d.segment == Text(Attr(seg.suffix))
              else d.segment == Text(Attr(urlToFilename[key] + seg.suffix))
  {
    match seg
    case Text(_) => Decision(seg, false)
    case Href(base, suffix) =>
      var key := LessonUrls.NormalizeLessonUrl(base);
      if !Mapped(key, urlToFilename) then Decision(seg, false)
      else if key == currentLessonUrl && StartsWith(suffix, "#") then Decision(Text(Attr(suffix)), true)
      else Decision(Text(Attr(urlToFilename[key] + suffix)), true)
  }

  /** Number of lesson links whose normalised base is mapped to a file. */
  function NumMapped(doc: seq<Segment>, urlToFilename: map<string, string>): nat {
    if |doc| == 0 then 0
    else
      (if doc[0].Href? && Mapped(LessonUrls.NormalizeLessonUrl(doc[0].base), urlToFilename) then 1 else 0)
      + NumMapped(doc[1..], urlToFilename)
  }

  datatype Rewritten = Rewritten(doc: seq<Segment>, count: nat)

  /** `rewrite_lesson_links`: every segment is replaced by its decision, in
      place, and the count is the number of links whose base was found. */
  function RewriteLessonLinks(doc: seq<Segment>, currentLessonUrl: string, urlToFilename: map<string, string>): (r: Rewritten)
    requires WellFormed(doc)
    ensures |r.doc| == |doc|
    ensures r.count == NumMapped(doc, urlToFilename)
    ensures forall i :: 0 <= i < |doc| ==>
              r.doc[i] == RewriteSegment(doc[i], currentLessonUrl, urlToFilename).segment
  {
    if |doc| == 0 then Rewritten([], 0)
    else
      var d := RewriteSegment(doc[0], currentLessonUrl, urlToFilename);
      var rest := RewriteLessonLinks(doc[1..], currentLessonUrl, urlToFilename);
      Rewritten([d.segment] + rest.doc, rest.count + (if d.rewritten then 1 else 0))
  }

  /** Links to pages outside the map, and all plain text, come out exactly as
      they went in; every mapped link becomes plain text. */
  lemma UntouchedUnlessMapped(doc: seq<Segment>, currentLessonUrl: string, urlToFilename: map<string, string>, i: nat)
    requires WellFormed(doc)
    requires i < |doc|
    ensures var out := RewriteLessonLinks(doc, currentLessonUrl, urlToFilename).doc;
            && (doc[i].Text? ==> out[i] == doc[i])
            && (doc[i].Href? && !Mapped(LessonUrls.NormalizeLessonUrl(doc[i].base), urlToFilename) ==> out[i] == doc[i])
            && (doc[i].Href? && Mapped(LessonUrls.NormalizeLessonUrl(doc[i].base), urlToFilename) ==> out[i].Text?)
  {
  }

  /** The count is zero exactly when no link is rewritten. */
  lemma {:induction false} CountZeroIffNoneMapped(doc: seq<Segment>, urlToFilename: map<string, string>)
    ensures NumMapped(doc, urlToFilename) == 0
        <==> forall i :: 0 <= i < |doc| && doc[i].Href? ==> !Mapped(LessonUrls.NormalizeLessonUrl(doc[i].base), urlToFilename)
  {
    if |doc| > 0 {
      CountZeroIffNoneMapped(doc[1..], urlToFilename);
      assert forall i :: 0 < i < |doc| ==> doc[i] == doc[1..][i - 1];
    }
  }

  /** A rewritten page holds no link the rewriter would touch again, so a
      second pass returns it unchanged and counts nothing. */
  lemma RewriteIsIdempotent(doc: seq<Segment>, currentLessonUrl: string, urlToFilename: map<string, string>)
    requires WellFormed(doc)
    ensures var once := RewriteLessonLinks(doc, currentLessonUrl, urlToFilename).doc;
            WellFormed(once) && RewriteLessonLinks(once, currentLessonUrl, urlToFilename) == Rewritten(once, 0)
  {
    var once := RewriteLessonLinks(doc, currentLessonUrl, urlToFilename).doc;
    forall i | 0 <= i < |once| && once[i].Href?
      ensures once[i] == doc[i]
      ensures !Mapped(LessonUrls.NormalizeLessonUrl(once[i].base), urlToFilename)
    {
      UntouchedUnlessMapped(doc, currentLessonUrl, urlToFilename, i);
    }
    assert WellFormed(once);
    var twice := RewriteLessonLinks(once, currentLessonUrl, urlToFilename);
    forall i | 0 <= i < |once| ensures twice.doc[i] == once[i] {
      UntouchedUnlessMapped(once, currentLessonUrl, urlToFilename, i);
    }
    assert twice.doc == once;
    CountZeroIffNoneMapped(once, urlToFilename);
  }

  /** A page with nothing to rewrite renders back exactly as it came in:
      the substitution returns every match's own text. */
  lemma NothingMappedRendersUnchanged(doc: seq<Segment>, currentLessonUrl: string, urlToFilename: map<string, string>)
    requires WellFormed(doc)
    requires RewriteLessonLinks(doc, currentLessonUrl, urlToFilename).count == 0
    ensures Render(RewriteLessonLinks(doc, currentLessonUrl, urlToFilename).doc) == Render(doc)
  {
    var out := RewriteLessonLinks(doc, currentLessonUrl, urlToFilename).doc;
    CountZeroIffNoneMapped(doc, urlToFilename);
    forall i | 0 <= i < |doc| ensures out[i] == doc[i] {
      UntouchedUnlessMapped(doc, currentLessonUrl, urlToFilename, i);
    }
    assert out == doc;
  }

  /** The three decisions on a page with canonical URL `a`: a link to another
      mapped lesson `b` with a fragment goes to b's file with the fragment
      kept, a link to `a` itself with a fragment becomes a same-page anchor,
      and a link to an unmapped lesson `u` stays as it is. */
  lemma LinkCases(a: string, b: string, u: string, fileA: string, fileB: string, frag: string)
    requires StartsWith(frag, "#")
    requires HrefShaped(a, frag) && HrefShaped(b, frag) && HrefShaped(u, "")
    requires a[|a| - 1] != '/' && b[|b| - 1] != '/' && u[|u| - 1] != '/'
    requires a != b && u != a && u != b
    requires fileA != "" && fileB != ""
    ensures var m := map[a := fileA, b := fileB];
            && RewriteSegment(Href(b, frag), a, m) == Decision(Text(Attr(fileB + frag)), true)
            && RewriteSegment(Href(a, frag), a, m) == Decision(Text(Attr(frag)), true)
            && RewriteSegment(Href(u, ""), a, m) == Decision(Href(u, ""), false)
  {
    var m := map[a := fileA, b := fileB];
    BaseWithoutSlashIsKey(a, frag);
    BaseWithoutSlashIsKey(b, frag);
    BaseWithoutSlashIsKey(u, "");
    assert m[a] == fileA && m[b] == fileB && u !in m;
  }
}

=== FILE: script_removal.dfy ===
/** Removal of `<script>` blocks that mention given needles
    (`remove_script_blocks_containing` and `remove_feedback_scripts` in
    scripts/laraveldaily_cleanup.py). The page is a sequence of segments:
    plain text, or one whole `<script ...>...</script>` block as matched by
    the script-block pattern. */
module ScriptRemoval {
  import opened Strings

  datatype Segment = Text(s: string) | Script(block: string)

  /** A script block goes when its text holds at least one needle. */
  predicate Doomed(seg: Segment, needles: seq<string>) {
    seg.Script? && exists n :: n in needles && Contains(seg.block, n)
  }

  predicate NoneDoomed(doc: seq<Segment>, needles: seq<string>) {
    forall i :: 0 <= i < |doc| ==> !Doomed(doc[i], needles)
  }

  /** Number of blocks of the page that hold a needle. */
  function CountDoomed(doc: seq<Segment>, needles: seq<string>): nat {
    if |doc| == 0 then 0
    else (if Doomed(doc[0], needles) then 1 else 0) + CountDoomed(doc[1..], needles)
  }

  /** `a` is `b` with some segments left out, the rest in their order. */
  predicate IsSubsequence(a: seq<Segment>, b: seq<Segment>)
    decreases |b|
  {
    if |a| == 0 then true
    else if |b| == 0 then false
    else (a[0] == b[0] && IsSubsequence(a[1..], b[1..])) || IsSubsequence(a, b[1..])
  }

  datatype Removal = Removal(doc: seq<Segment>, removed: nat)

  /** `remove_script_blocks_containing`: drops the blocks that hold a needle,
      keeps every other segment in order, and counts the drops. */
  function RemoveScriptBlocksContaining(doc: seq<Segment>, needles: seq<string>): (r: Removal)
    ensures IsSubsequence(r.doc, doc)
    ensures NoneDoomed(r.doc, needles)
    ensures r.removed == CountDoomed(doc, needles)
    ensures |r.doc| + r.removed == |doc|
  {
    if |doc| == 0 then Removal([], 0)
    else
      var rest := RemoveScriptBlocksContaining(doc[1..], needles);
      if Doomed(doc[0], needles) then
        Removal(rest.doc, rest.removed + 1)
      else
        assert ([doc[0]] + rest.doc)[1..] == rest.doc;
        Removal([doc[0]] + rest.doc, rest.removed)
  }

  /** The needles of `remove_feedback_scripts`. */
  const FeedbackNeedles: seq<string> := ["feedbackModal", "feedbackForm"]

  /** The needles of the comment-editor script removal. */
  const CommentsEditorNeedles: seq<string> :=
    ["Laravel Comments scripts were loaded", "EasyMDE", "loadEasyMDE", "Alpine.data(\"compose\""]

  function RemoveFeedbackScripts(doc: seq<Segment>): (r: Removal)
    ensures IsSubsequence(r.doc, doc)
    ensures NoneDoomed(r.doc, FeedbackNeedles)
    ensures r.removed == CountDoomed(doc, FeedbackNeedles)
    ensures |r.doc| + r.removed == |doc|
  {
    RemoveScriptBlocksContaining(doc, FeedbackNeedles)
  }

  function RemoveCommentsEditorScripts(doc: seq<Segment>): (r: Removal)
    ensures IsSubsequence(r.doc, doc)
    ensures NoneDoomed(r.doc, CommentsEditorNeedles)
    ensures r.removed == CountDoomed(doc, CommentsEditorNeedles)
    ensures |r.doc| + r.removed == |doc|
  {
    RemoveScriptBlocksContaining(doc, CommentsEditorNeedles)
  }

  lemma {:induction false} CountDoomedZero(doc: seq<Segment>, needles: seq<string>)
    ensures CountDoomed(doc, needles) == 0 <==> NoneDoomed(doc, needles)
  {
    if |doc| > 0 {
      CountDoomedZero(doc[1..], needles);
      assert forall i :: 0 < i < |doc| ==> doc[i] == doc[1..][i - 1];
    }
  }

  lemma {:induction false} SubsequenceOfEmpty(a: seq<Segment>)
    requires IsSubsequence(a, [])
    ensures a == []
  {
  }

  /** A subsequence free of doomed blocks is no longer than the segments the
      removal keeps. */
  lemma {:induction false} SubsequenceBound(a: seq<Segment>, b: seq<Segment>, needles: seq<string>)
    requires IsSubsequence(a, b) && NoneDoomed(a, needles)
    ensures |a| + CountDoomed(b, needles) <= |b|
    decreases |b|
  {
    if |b| == 0 {
      return;
    }
    if |a| > 0 && a[0] == b[0] && IsSubsequence(a[1..], b[1..]) {
      assert !Doomed(b[0], needles);
      SubsequenceBound(a[1..], b[1..], needles);
    } else {
      assert IsSubsequence(a, b[1..]);
      SubsequenceBound(a, b[1..], needles);
    }
  }

  /** Removal is exactly determined by its contract: the only subsequence of
      the page that keeps every needle-free segment and drops every block
      with a needle is the one returned. */
  lemma {:induction false} RemovalIsExact(doc: seq<Segment>, needles: seq<string>, s: seq<Segment>)
    requires IsSubsequence(s, doc) && NoneDoomed(s, needles)
    requires |s| + CountDoomed(doc, needles) == |doc|
    ensures s == RemoveScriptBlocksContaining(doc, needles).doc
    decreases |doc|
  {
    if |doc| == 0 {
      SubsequenceOfEmpty(s);
      return;
    }
    var rest := doc[1..];
    if Doomed(doc[0], needles) {
      assert IsSubsequence(s, rest) by {
        if |s| > 0 {
          assert !Doomed(s[0], needles);
        }
      }
      RemovalIsExact(rest, needles, s);
    } else if |s| > 0 && s[0] == doc[0] && IsSubsequence(s[1..], rest) {
      assert NoneDoomed(s[1..], needles) by {
        assert forall i :: 0 <= i < |s[1..]| ==> s[1..][i] == s[i + 1];
      }
      RemovalIsExact(rest, needles, s[1..]);
      assert s == [s[0]] + s[1..];
    } else {
      assert IsSubsequence(s, rest);
      SubsequenceBound(s, rest, needles);
    }
  }

  /** Every segment that is not a doomed block survives, and nothing doomed
      does. */
  lemma {:induction false} KeepsEveryOtherSegment(doc: seq<Segment>, needles: seq<string>, seg: Segment)
    requires seg in doc
    ensures seg in RemoveScriptBlocksContaining(doc, needles).doc <==> !Doomed(seg, needles)
  {
    if doc[0] != seg {
      KeepsEveryOtherSegment(doc[1..], needles, seg);
    }
  }

  /** A second pass finds nothing to remove and changes nothing. */
  lemma RemovalIsIdempotent(doc: seq<Segment>, needles: seq<string>)
    ensures var once := RemoveScriptBlocksContaining(doc, needles).doc;
            RemoveScriptBlocksContaining(once, needles) == Removal(once, 0)
  {
    var once := RemoveScriptBlocksContaining(doc, needles).doc;
    CountDoomedZero(once, needles);
    var twice := RemoveScriptBlocksContaining(once, needles);
    assert IsSubsequence(once, once) by {
      SubsequenceRefl(once);
    }
    RemovalIsExact(once, needles, once);
  }

  lemma {:induction false} SubsequenceRefl(a: seq<Segment>)
    ensures IsSubsequence(a, a)
    decreases |a|
  {
    if |a| > 0 {
      SubsequenceRefl(a[1..]);
    }
  }
}

=== FILE: strings.dfy ===
/** Character and string helpers with Python's meaning: `str.isspace`,
    `str.strip`, `str.startswith` and the `in` substring test. The functions
    carry no postconditions so that proofs elsewhere do not pay for them;
    their properties are lemmas, called where a proof needs them. */
module Strings {

  /** The characters CPython's `str.isspace` (and so `str.strip()` and the
      regex class `\s` on str patterns) treats as whitespace. */
  predicate IsSpace(c: char) {
    || ('\t' <= c <= '\r')
    || ('\U{1C}' <= c <= '\U{1F}')
    || c == ' '
    || c == '\U{85}'
    || c == '\U{A0}'
    || c == '\U{1680}'
    || ('\U{2000}' <= c <= '\U{200A}')
    || c == '\U{2028}'
    || c == '\U{2029}'
    || c == '\U{202F}'
    || c == '\U{205F}'
    || c == '\U{3000}'
  }

  predicate AllSpace(s: string) {
    forall i :: 0 <= i < |s| ==> IsSpace(s[i])
  }

  /** Neither the first nor the last character is whitespace. */
  predicate Trimmed(s: string) {
    |s| == 0 || (!IsSpace(s[0]) && !IsSpace(s[|s| - 1]))
  }

  function StripLeading(s: string): string {
    if |s| > 0 && IsSpace(s[0]) then StripLeading(s[1..]) else s
  }

  function StripTrailing(s: string): string {
    if |s| > 0 && IsSpace(s[|s| - 1]) then StripTrailing(s[..|s| - 1]) else s
  }

  /** Python's `s.strip()`. */
  function Strip(s: string): string {
    StripTrailing(StripLeading(s))
  }

  /** Leading stripping removes a run of whitespace and stops at the first
      other character. */
  lemma {:induction false} StripLeadingSpec(s: string)
    ensures var r := StripLeading(s);
            && |r| <= |s| && r == s[|s| - |r|..]
            && AllSpace(s[..|s| - |r|])
            && (|r| == 0 || !IsSpace(r[0]))
    decreases |s|
  {
    if |s| > 0 && IsSpace(s[0]) {
      StripLeadingSpec(s[1..]);
      var r := StripLeading(s);
      assert s[..|s| - |r|] == [s[0]] + s[1..][..|s| - 1 - |r|];
    }
  }

  /** Trailing stripping removes a run of whitespace at the end and keeps the
      rest as a prefix. */
  lemma {:induction false} StripTrailingSpec(s: string)
    ensures var r := StripTrailing(s);
            && |r| <= |s| && r == s[..|r|]
            && AllSpace(s[|r|..])
            && (|r| == 0 || !IsSpace(r[|r| - 1]))
    decreases |s|
  {
    if |s| > 0 && IsSpace(s[|s| - 1]) {
      var t := s[..|s| - 1];
      StripTrailingSpec(t);
      var r := StripTrailing(s);
      assert s[|r|..] == t[|r|..] + [s[|s| - 1]];
    }
  }

  /** A non-space character survives trailing-whitespace stripping. */
  lemma {:induction false} StripTrailingKeeps(s: string, k: nat)
    requires k < |s| && !IsSpace(s[k])
    ensures |StripTrailing(s)| > k
    decreases |s|
  {
    if IsSpace(s[|s| - 1]) {
      StripTrailingKeeps(s[..|s| - 1], k);
    }
  }

  /** `strip()` leaves no whitespace at either end, only shortens, and leaves
      an already trimmed string alone. */
  lemma StripBasics(s: string)
    ensures |Strip(s)| <= |s|
    ensures Trimmed(Strip(s))
    ensures Trimmed(s) ==> Strip(s) == s
    ensures |s| > 0 && !IsSpace(s[0]) ==> Strip(s) == StripTrailing(s)
  {
    var lead := StripLeading(s);
    StripLeadingSpec(s);
    StripTrailingSpec(lead);
    var r := StripTrailing(lead);
    if |r| > 0 {
      assert r[0] == lead[0];
    }
  }

  /** `strip()` cuts a run of whitespace off each end and nothing else: the
      result is a slice of the input between two all-whitespace ends, with no
      whitespace at either end, and an already trimmed string is left alone. */
  lemma StripSpec(s: string)
    ensures exists i, j :: 0 <= i <= j <= |s| && Strip(s) == s[i..j] && AllSpace(s[..i]) && AllSpace(s[j..])
    ensures Trimmed(Strip(s))
    ensures Trimmed(s) ==> Strip(s) == s
  {
    StripBasics(s);
    var lead := StripLeading(s);
    StripLeadingSpec(s);
    StripTrailingSpec(lead);
    var r := StripTrailing(lead);
    var i := |s| - |lead|;
    var j := i + |r|;
    assert lead[|r|..] == s[j..];
    assert r == s[i..j];
  }

  /** Python's `s.startswith(p)`. */
  predicate StartsWith(s: string, p: string) {
    |p| <= |s| && s[..|p|] == p
  }

  /** Python's `needle in s`; the empty needle occurs in every string. */
  predicate Contains(s: string, needle: string)
    decreases |s|
  {
    StartsWith(s, needle) || (|s| > 0 && Contains(s[1..], needle))
  }
}

=== FILE: wrappers.dfy ===
/** Failure-carrying wrappers used across the model: the Python code signals
    errors by raising, the model returns a Result instead. */
module Wrappers {

  datatype Option<+T> = None | Some(value: T)

  datatype Result<+T, +E> = Success(value: T) | Failure(error: E)
}
